=== FILE: README.md ===
# Time capsule: the deferred-delivery core in Dafny

The time-capsule app stores messages ("capsules") that it emails to a recipient at a
chosen date. This project models the part that decides when and whether a capsule is
delivered:

- **Timer registry** (`scheduleTask`, lib/scheduler.ts). It keeps one in-memory timer per
  capsule id. Each call first clears the id's timer, then does one of three things:
  stops, arms a timer for a future date, or delivers at once.
- **Lifecycle server actions** (app/actions.ts). `createCapsule`, `updateCapsule`,
  `deleteCapsule` and `processCapsule` validate their input, write the capsule store and
  drive the registry. The recipient check is the regular expression
  `^[^\s@]+@[^\s@]+\.[^\s@]+$`.
- **Cron sweep** (`GET`, app/api/cron/route.ts). It lists the store by date and delivers
  every pending capsule whose date has passed. It reports how many capsules it processed,
  delivered and failed.
- **Time picker arithmetic** (components/time-picker.tsx). This covers the hour and
  minute input clamping, the AM/PM toggle, and the 24-hour to 12-hour conversions and
  back. The handlers read input with `Number.parseInt(text, 10)`, modelled in
  `NumberParse`.

The state is the immutable value `System(store, timers, attempts)`:

- `store` maps ids to capsules.
- `timers` maps an id to its timer's fire time.
- `attempts` logs every call made to the mail gateway.

Transitions are pure functions. Outside effects come in as parameters:

- The clock is `now`. `createCapsule` reads the clock three times: to validate the date
  (app/actions.ts:49), to stamp `createdAt` (line 65) and in `scheduleTask`
  (lib/scheduler.ts:20). These readings are `now`, `createdNow` and `armNow`.
- The gateway's answer is `delivered`, or per id `gateway(id)` in the sweep.
- A fresh id replaces `uuidv4()`, through the precondition `id !in sys.store`.
- A timer going off is the explicit step `Scheduler.Fire`.
- Dates are millisecond timestamps (`int`).

Modules:

| module | contents |
|---|---|
| `Capsules` | The records and the system state. |
| `JsChars` | The JavaScript `\s` class and decimal digits. |
| `EmailFormat` | The recipient check. |
| `Delivery` | `processCapsule`. |
| `Scheduler` | The timer registry. |
| `Actions` | create, update and delete. |
| `Cron` | The sweep. |
| `Lifecycle` | Invariants and multi-step scenarios. |
| `NumberParse` | `Number.parseInt`. |
| `TimePicker` | The picker arithmetic. |

In two places the code does less than one would expect of it. The model follows the code:

- **No status check in `processCapsule`.** The code does not check the status before
  sending (app/actions.ts:239-263). Processing a Sent or Failed capsule therefore emails
  it again and overwrites the status (`Delivery.ProcessTwiceSendsTwice`). A sweep that
  runs before a capsule's timer fires also leads to two deliveries
  (`Lifecycle.SweepThenFireDeliversTwice`). A delivered capsule should not be delivered
  again, but nothing in the code prevents it.
- **Past dates on update.** `updateCapsule` rejects a past date only for a pending
  capsule (app/actions.ts:159). A Sent or Failed capsule accepts any date.

## Model

| member | source | states |
|---|---|---|
| Delivery.ProcessCapsule | app/actions.ts:236-287 | An unknown id is reported as not found and nothing changes. Otherwise the gateway is called exactly once with the capsule's recipient, subject, text and attachments, and exactly one status write follows (sent on success, failed on error). No other field and no timer changes. The result is success exactly when the gateway succeeded. |
| Delivery.ProcessTwiceSendsTwice | app/actions.ts:239-263 | There is no pending guard. Processing twice calls the gateway twice with the same email, and the second outcome overwrites the first terminal status. |
| Scheduler.ScheduleTask | lib/scheduler.ts:9-35 | Other ids keep their registrations. Cancel removes the id's registration and delivers nothing. A future date leaves exactly one registration firing at that date and delivers nothing now. A date that is not in the future delivers at once and leaves no registration. |
| Scheduler.Fire | lib/scheduler.ts:25-28 | A timer fires only once its time has come. It runs delivery and then removes its own registration, leaving all others. |
| Scheduler.RearmReplaces | lib/scheduler.ts:11-14 | Arming twice equals arming once with the second date: the earlier timer is cleared first. |
| Scheduler.CancelUndoesArm | lib/scheduler.ts:11-17 | Cancelling after arming restores the system exactly. |
| Scheduler.ArmThenFireDeliversOnce | lib/scheduler.ts:24-30 | Arming delivers nothing. The later fire makes exactly one gateway call, records its outcome and leaves no registration. |
| Scheduler.TimeoutFireTime | lib/scheduler.ts:24-28 | The JavaScript timer fires at the requested time when the delay fits in 2^31-1 ms. A longer delay fires 1 ms after arming, before the requested time. |
| Scheduler.ScheduleTaskOnTimeout | lib/scheduler.ts:24-30 | Same as `ScheduleTask` except for the armed fire time, which is the one `TimeoutFireTime` gives. |
| Scheduler.LongDelayFiresEarly | lib/scheduler.ts:24-28 | A capsule scheduled 30 days ahead has its timer due 1 ms later, and firing it then delivers the capsule. |
| EmailFormat.FirstAt | app/actions.ts:39 | Finds the first '@', if any: no '@' comes before the position found, and none exists when nothing is found. |
| EmailFormat.IsValidEmail | app/actions.ts:39-40 | An accepted address contains an '@' and has at least five characters (the shortest is `a@b.c`). |
| EmailFormat.ValidEmailShape | app/actions.ts:39-40 | An accepted address holds no white space, and its only '@' is the first one. |
| EmailFormat.ValidEmailIffPattern | app/actions.ts:38-40 | The structural test the actions use (non-empty local part with no white space or '@', then '@', then a domain with no white space or '@' and an inner '.') accepts exactly the strings the regular expression matches. |
| EmailFormat.AcceptsExample | app/actions.ts:39-40 | A plain address passes. |
| EmailFormat.RejectsExamples | app/actions.ts:149-150 | Refused: no inner dot, empty local part, two '@'s, white space. |
| Actions.CreateCapsule | app/actions.ts:28-77 | The first failing check is reported, in source order (missing field, bad address, date not in the future), and nothing changes. Success holds exactly when all checks pass. On success, exactly one capsule is added under the fresh id: pending, stamped with the `createdAt` clock reading, with the form's content and `[]` for missing attachments. Other capsules, and the registrations and fire times of other ids, stay as they were. Its timer fires at the scheduled date, unless the scheduler's clock has already passed that date, in which case it is delivered at once. |
| Actions.UpdateRejection | app/actions.ts:128-164 | The update's validation, with each check's own error, in source order. A missing field or id comes first, then an unknown id (not found), then a bad address (invalid email). A pending capsule whose new date is not in the future is rejected with the not-in-future error; other capsules may take any date. The update passes exactly when none of these apply. |
| Actions.UpdateCapsule | app/actions.ts:126-189 | A rejection returns the validation's error and changes nothing. Success holds exactly when validation passes. Success overwrites only recipient, subject, message, date and attachments (id, status and createdAt stay) and sends nothing. A pending capsule loses its timer on every successful edit, because the test on line 181 is always true; otherwise the registry is unchanged. |
| Actions.UpdateCapsuleRearm | app/actions.ts:180-183 | The corrected update. Same validation, errors and writes, but a pending capsule whose date changed gets a timer for the new date, or is delivered at once when that date has already passed for the scheduler's clock. In every other case the registry is untouched. |
| Actions.DeleteCapsule | app/actions.ts:199-226 | An unknown id is reported as not found and nothing changes. Otherwise the record is removed and nothing is delivered. A pending capsule's timer is cancelled; otherwise the registry is unchanged. |
| Cron.FindAllOrdered | app/api/cron/route.ts:12-14 | Lists every stored capsule exactly once, as stored, in ascending date order. |
| Cron.IsDue | app/api/cron/route.ts:17 | A sent or failed capsule is never due, and neither is one whose date is after `now`. |
| Cron.Due | app/api/cron/route.ts:16-18 | The filter keeps exactly the listed capsules that are pending and whose date is not after `now`. |
| Cron.DueSorted | app/api/cron/route.ts:12-18 | The due list keeps the listing's ascending date order. |
| Cron.DueDistinct | app/api/cron/route.ts:16-18 | The due list names no capsule twice. |
| Cron.DueCount | app/api/cron/route.ts:16-18 | The due list is as long as the set of due capsules in the store. |
| Cron.CountSuccesses | app/api/cron/route.ts:24-26 | The success count is at most the number of results; it equals that number exactly when every result succeeded, and is zero exactly when every result failed. `Cron.CountSuccessesIsCard` gives the exact count. |
| Cron.CountSuccessesIsCard | app/api/cron/route.ts:24-26 | Counting the successful results of distinct capsules gives the number of capsules whose delivery succeeded. |
| Cron.ProcessEach | app/api/cron/route.ts:21 | Every item is processed, with one result each. Timers and the set of stored ids do not change. |
| Cron.ProcessEachResults | app/api/cron/route.ts:21-25 | Item i succeeds exactly when the gateway delivered capsule i. A failing item does not stop the items after it. |
| Cron.ProcessEachAttempts | app/api/cron/route.ts:21 | The gateway receives the emails of the due capsules, one each, in the order of the sequential fold. |
| Cron.ProcessEachStore | app/api/cron/route.ts:21 | Each processed capsule ends with the gateway's outcome as its status; every other capsule is unchanged. |
| Cron.SuccessCount | app/api/cron/route.ts:24-26 | The success count equals the number of due capsules the gateway delivered. |
| Cron.DueOfListing | app/api/cron/route.ts:12-18 | The due list of a listing holds current records, and its ids are exactly the store's due ids. |
| Cron.Sweep | app/api/cron/route.ts:8-34 | `processed` is the number of due capsules. `successes` is the number the gateway delivered. Successes plus failures equals processed. Timers and stored ids do not change. |
| Cron.SweepEffect | app/api/cron/route.ts:16-21 | Each due capsule takes the gateway's outcome; capsules outside the due set keep their status. In the sequential fold, the gateway receives the due capsules' emails in ascending date order. |
| Cron.RunCron | app/api/cron/route.ts:8-34 | `processed` is the number of due capsules and `successes` the number of due capsules the gateway delivered; successes plus failures equals processed. The gateway is called for the due capsules only, once each, in ascending date order: Sent, Failed and future capsules are never emailed. Each due capsule takes the gateway's outcome as its status and every other record is kept. No timer and no stored id changes, and afterwards no pending capsule is overdue. |
| Lifecycle.CreateKeepsTracked | app/actions.ts:57-72 | Creating a capsule keeps every pending capsule covered by a timer at its date. |
| Lifecycle.CreateKeepsTimersAgree | app/actions.ts:57-72 | Creating keeps every existing timer at its capsule's date. |
| Lifecycle.UpdateKeepsTimersAgree | app/actions.ts:166-183 | The update as written never leaves a timer at a date the capsule no longer has. |
| Lifecycle.PendingUpdateDropsTimer | app/actions.ts:180-183 | Every successful update of a pending capsule, as written, writes the new content, leaves the capsule pending, removes its timer, and so breaks tracking. |
| Lifecycle.UpdateDropsTimer | app/actions.ts:180-183 | Counterexample: moving a tracked pending capsule from 100 to 200 at time 10 succeeds and leaves it pending with no timer. |
| Lifecycle.EditKeepingDateDropsTimer | app/actions.ts:180-183 | Counterexample: editing only the subject of a tracked pending capsule succeeds, keeps its date, and leaves it pending with no timer. |
| Lifecycle.UpdateRearmKeepsTracked | app/actions.ts:180-183 | The corrected update keeps every pending capsule covered by a timer at its date. |
| Lifecycle.DeleteKeepsTracked | app/actions.ts:213-221 | Deleting keeps every remaining pending capsule tracked. |
| Lifecycle.ProcessKeepsTracked | app/actions.ts:259-273 | Processing keeps tracking: the capsule leaves the pending state. |
| Lifecycle.FireKeepsTracked | lib/scheduler.ts:25-28 | A timer firing keeps every pending capsule tracked. |
| Lifecycle.TrackedTimersAgree | lib/scheduler.ts:11-30 | A registry that tracks every pending capsule also keeps each timer at its capsule's date. |
| Lifecycle.UpdateRearmKeepsTimersAgree | app/actions.ts:166-183 | The corrected update never leaves a timer at a date the capsule no longer has. |
| Lifecycle.DeleteKeepsTimersAgree | app/actions.ts:213-221 | Deleting keeps every remaining timer at its capsule's date. |
| Lifecycle.ProcessKeepsTimersAgree | app/actions.ts:259-273 | Processing keeps every timer of a pending capsule at its date. |
| Lifecycle.FireKeepsTimersAgree | lib/scheduler.ts:25-28 | A timer firing keeps every other timer at its capsule's date. |
| Lifecycle.SweepKeepsTimersAgree | app/api/cron/route.ts:16-21 | The sweep keeps every timer of a pending capsule at its date. |
| Lifecycle.CreateKeepsWellKeyed | app/actions.ts:57-69 | Creating stores the new capsule under its own id, and every other capsule stays under its own. |
| Lifecycle.UpdateKeepsWellKeyed | app/actions.ts:166-177 | The update as written never changes which id a capsule is stored under. |
| Lifecycle.UpdateRearmKeepsWellKeyed | app/actions.ts:166-177 | Nor does the corrected update. |
| Lifecycle.DeleteKeepsWellKeyed | app/actions.ts:213-221 | Deleting keeps every remaining capsule under its own id. |
| Lifecycle.ProcessKeepsWellKeyed | app/actions.ts:259-273 | Processing keeps every capsule under its own id. |
| Lifecycle.FireKeepsWellKeyed | lib/scheduler.ts:25-28 | A timer firing keeps every capsule under its own id. |
| Lifecycle.SweepKeepsWellKeyed | app/api/cron/route.ts:16-21 | The sweep keeps every capsule under its own id, so the next request can list the store again. |
| Lifecycle.FireNeverEarly | lib/scheduler.ts:24-30 | With timers at their capsules' dates (an invariant every step keeps, by the `KeepsTimersAgree` lemmas), a timer that fires for a pending capsule does so no earlier than the scheduled date, and sends it once. |
| Lifecycle.SweepKeepsTracked | app/api/cron/route.ts:16-21 | The sweep keeps every pending capsule tracked. |
| Lifecycle.DeleteStopsDelivery | app/actions.ts:214-221 | After deleting a pending capsule, neither a timer nor a later sweep can deliver it. |
| Lifecycle.CreateThenFire | app/actions.ts:69-72 | A capsule created for a future date within the timer limit (2^31-1 ms ahead of the scheduler's clock) is delivered by its timer at that date, once, with no sweep. |
| Lifecycle.SweepThenFireDeliversTwice | app/api/cron/route.ts:16-21 | A due capsule still in the registry is delivered by the sweep and then again by its timer. |
| NumberParse.ParseInt | components/time-picker.tsx:31 | After the leading white space and an optional sign, the result is NaN exactly when no digit follows. A negative result only comes after a '-'. |
| NumberParse.ShowNat | components/time-picker.tsx:31 | The decimal spelling of a natural number is a non-empty run of digits whose value is the number. |
| NumberParse.DigitPrefixOfDigits | components/time-picker.tsx:31 | Parsing stops at the first non-digit. |
| NumberParse.ParseShowInt | components/time-picker.tsx:31 | Parsing a printed integer, followed by any text that does not start with a digit, gives back the integer. |
| NumberParse.ParseExamples | components/time-picker.tsx:31-32 | Leading white space is skipped. Empty text and a lone sign are not numbers. |
| TimePicker.Clamp | components/time-picker.tsx:37-43 | The result lies in the range; a value inside it is kept; a value below or above becomes the nearer bound. |
| TimePicker.HourChange | components/time-picker.tsx:30-43 | The hour handler leaves the hour in [0, 12] and does not touch minute or AM/PM. |
| TimePicker.HourInput | components/time-picker.tsx:30-43 | Unparsable text gives hour 0. A number above 12 gives 12, one below 0 gives 0, and any other is kept. |
| TimePicker.MinuteChange | components/time-picker.tsx:50-64 | The minute handler leaves the minute in [0, 59] and does not touch hour or AM/PM. |
| TimePicker.MinuteInput | components/time-picker.tsx:50-64 | Unparsable text gives minute 0. A number above 59 gives 59, one below 0 gives 0, and any other is kept. |
| TimePicker.HourInputKeepsShownHour | components/time-picker.tsx:30-43 | Typing a displayed hour back in keeps it. |
| TimePicker.HandlersKeepValid | components/time-picker.tsx:30-68 | Every handler keeps hour and minute in range. |
| TimePicker.Toggle | components/time-picker.tsx:66-68 | The toggle flips AM/PM and keeps hour and minute. |
| TimePicker.ToggleTwice | components/time-picker.tsx:66-68 | The toggle flips AM/PM and nothing else; toggling twice restores the state. |
| TimePicker.FromDate | components/time-picker.tsx:22-27 | A 24-hour time gives a displayed hour in [1, 12], PM exactly when the hour is at least 12, and the same minute. |
| TimePicker.ToHours | components/time-picker.tsx:74 | The hours written back lie in [0, 23]: 12 AM is 0, 12 PM is 12, and hours 1-11 gain 12 in the afternoon. |
| TimePicker.DateRoundTrip | components/time-picker.tsx:22-27 | Converting any 24-hour time to the picker and back gives the same hours and minutes. |
| TimePicker.PickerRoundTrip | components/time-picker.tsx:74 | Every displayed hour 1-12, with either flag, comes back unchanged from the date it writes. |
| TimePicker.ZeroHourActsAsTwelve | components/time-picker.tsx:37-45 | An hour of 0, which the input accepts, writes back the same hours as 12. |

## Left out

- React rendering, focus handling and the picker's initial state. The initial state
  (components/time-picker.tsx:15-17) stores the raw 24-hour value until the effect at
  lines 19-28 runs. The order of the React effects is not modelled.
- Form components, upload progress and the other pages: they are UI.
- Firebase uploads and the nodemailer transport: foreign I/O. The gateway is an abstract
  success or failure (`delivered`, `gateway`).
- The Prisma store. It is a map. `findMany` ordered by date is any listing with distinct
  ids, current records and ascending dates, and `Cron.FindAllOrdered` builds one. Ties
  between equal dates are in no particular order.
- `getCapsules` and `getCapsuleById`: read-only queries with no effect on delivery.
- `uuidv4`: a fresh-id precondition. Collisions are not modelled.
- `revalidatePath` and `console.error`: no effect on the state.
- The outer `try/catch` paths taken when the store throws: store operations always
  succeed here.
- Date strings, their parsing, invalid dates (`NaN`) and time zones. Dates are integer
  milliseconds. The store's date column is a `Date` (lib/db.ts:7,24; prisma/seed.ts:11).
  So the test at app/actions.ts:181 compares a `Date` object with the submitted string
  and is always true. `Actions.UpdateCapsule` follows that: every successful edit of a
  pending capsule takes the cancelling branch. The corrected `Actions.UpdateCapsuleRearm`
  compares instants instead.
- Concurrency: real timers, the `Promise.allSettled` parallelism, and interleaving
  between timers, sweeps and actions. The sweep is a sequential fold; firing is the
  explicit step `Scheduler.Fire`. `processCapsule` catches its own errors, so no sweep
  item is rejected.
- `Number.parseInt` on digit runs beyond 2^53, where JavaScript loses precision. Parsed
  values are exact integers.
- The commented-out Bull queue in lib/scheduler.ts: it is not compiled.
- Actions.CreateCapsule: the timer is modelled as firing at the scheduled date. The
  JavaScript timer fires early for delays past 2^31-1 ms (`Scheduler.ScheduleTaskOnTimeout`,
  second finding below).

## Findings

| source | as written | input that shows it | evidently intended | confidence | as-written member | corrected member |
|---|---|---|---|---|---|---|
| app/actions.ts:180-183 | On any successful edit of a pending capsule, its timer is passed to `scheduleTask(id, date, true)`, which only cancels it. Line 181 compares the stored `Date` with the submitted string, so the test holds even when the date is unchanged. | A pending capsule at 100, armed; at time 10 its date becomes 200, or only its subject changes. Either way it stays pending with no timer, so only a cron sweep can ever send it. | Compare the dates as instants and re-arm the timer for a changed date (`cancel` false), as the comment on line 180 says. | high, not executed (the always-true comparison is inferred from the store's types) | Actions.UpdateCapsule, shown by Lifecycle.UpdateDropsTimer and Lifecycle.EditKeepingDateDropsTimer | Actions.UpdateCapsuleRearm, proved by Lifecycle.UpdateRearmKeepsTracked |
| lib/scheduler.ts:24-28 | The delay is passed to `setTimeout` unchecked. A delay above 2^31-1 ms (about 24.8 days) is replaced by 1 ms, so the capsule is sent almost at once. | A capsule created for 30 days ahead: its timer fires 1 ms after creation and emails it a month early. | Fire at the scheduled date; longer delays would have to be chained or left to the sweep. | medium (depends on the runtime's timer limit), not executed | Scheduler.ScheduleTaskOnTimeout, shown by Scheduler.LongDelayFiresEarly | Scheduler.ScheduleTask, proved by Lifecycle.FireNeverEarly |

=== FILE: actions.dfy ===
/** The capsule lifecycle server actions of app/actions.ts: create (28-85), update
    (126-197) and delete (199-234), as transitions of the store and the timer registry.
    Fresh ids stand for `uuidv4()`. Create reads the clock three times, kept apart here: `now`
    is the reading the action validates against, `createdNow` the one stamped as `createdAt`,
    and `armNow` the one `scheduleTask` reads. The actions arm
    timers through `ScheduleTask`, which fires at the requested time (see
    `ScheduleTaskOnTimeout` for the long-delay behaviour of the JavaScript timer). */
module Actions {
  import opened Capsules
  import opened EmailFormat
  import opened Delivery
  import opened Scheduler

  /** The form fields; an absent date is the empty string, absent attachments are `undefined`. */
  datatype CapsuleData = CapsuleData(
    recipient: string,
    subject: string,
    message: string,
    scheduledDate: Option<Time>,
    attachments: Option<seq<Attachment>>)

  /** Every text field is non-empty and a date was given (attachments are optional). */
  predicate FieldsPresent(data: CapsuleData)
  {
    data.recipient != "" && data.subject != "" && data.message != "" && data.scheduledDate.Some?
  }

  /** The fields an update is allowed to overwrite, taken from the form. */
  function WithContent(c: Capsule, data: CapsuleData): Capsule
    requires data.scheduledDate.Some?
  {
    c.(recipient := data.recipient, subject := data.subject, message := data.message,
       scheduledDate := data.scheduledDate.value, attachments := data.attachments.GetOr([]))
  }

  function CreateCapsule(sys: System, data: CapsuleData, id: Id, now: Time, createdNow: Time, armNow: Time, delivered: bool)
    : (r: (System, Result<Capsule>))
    requires id !in sys.store
    // Each rejection is reported in the order the checks run and changes nothing.
    ensures !FieldsPresent(data) ==> r == (sys, Failure(MissingField))
    ensures FieldsPresent(data) && !IsValidEmail(data.recipient) ==> r == (sys, Failure(InvalidEmail))
    ensures FieldsPresent(data) && IsValidEmail(data.recipient) && data.scheduledDate.value <= now ==>
      r == (sys, Failure(NotInFuture))
    ensures r.1.Success? <==>
      FieldsPresent(data) && IsValidEmail(data.recipient) && data.scheduledDate.value > now
    // On success exactly one capsule is added, under the fresh id, pending, with the form's
    // content and `[]` for missing attachments; no other capsule changes.
    ensures r.1.Success? ==>
      var c := r.1.value;
      && c.id == id && c.status == Pending && c.createdAt == createdNow
      && c.recipient == data.recipient && c.subject == data.subject && c.message == data.message
      && c.scheduledDate == data.scheduledDate.value && c.attachments == data.attachments.GetOr([])
      && r.0.store.Keys == sys.store.Keys + {id}
      && (forall other :: other in sys.store ==> r.0.store[other] == sys.store[other])
      && r.0.timers - {id} == sys.timers - {id}
    // The timer is armed for the scheduled date; only if the scheduler's clock has already
    // passed that date is the capsule delivered at once instead.
    ensures r.1.Success? && r.1.value.scheduledDate - armNow > 0 ==>
      && r.0.store[id] == r.1.value && r.0.timers == sys.timers[id := r.1.value.scheduledDate]
      && r.0.attempts == sys.attempts
    ensures r.1.Success? && r.1.value.scheduledDate - armNow <= 0 ==>
      && r.0.store[id] == r.1.value.(status := Outcome(delivered)) && id !in r.0.timers
      && r.0.attempts == sys.attempts + [EmailOf(r.1.value)]
  {
    if !FieldsPresent(data) then
      (sys, Failure(MissingField))
    else if !IsValidEmail(data.recipient) then
      (sys, Failure(InvalidEmail))
    else if data.scheduledDate.value <= now then
      (sys, Failure(NotInFuture))
    else
      var c := Capsule(id, data.recipient, data.subject, data.message, data.scheduledDate.value,
                       Pending, createdNow, data.attachments.GetOr([]));
      var stored := sys.(store := sys.store[id := c]);
      (ScheduleTask(stored, id, c.scheduledDate, false, armNow, delivered), Success(c))
  }

  /** The validation `updateCapsule` runs before writing, in its order; `None` when it passes. */
  function UpdateRejection(sys: System, id: Id, data: CapsuleData, now: Time): (e: Option<Error>)
    ensures e == Some(MissingField) <==> id == "" || !FieldsPresent(data)
    ensures id != "" && FieldsPresent(data) ==> (e == Some(NotFound) <==> id !in sys.store)
    ensures id != "" && FieldsPresent(data) && id in sys.store && !IsValidEmail(data.recipient) ==>
      e == Some(InvalidEmail)
    ensures id != "" && FieldsPresent(data) && id in sys.store && IsValidEmail(data.recipient) ==>
      (e == Some(NotInFuture) <==> sys.store[id].status == Pending && data.scheduledDate.value <= now)
    ensures e == None <==>
      && id != "" && FieldsPresent(data) && id in sys.store && IsValidEmail(data.recipient)
      // Only a pending capsule must keep a future date; Sent and Failed ones may take any date.
      && !(sys.store[id].status == Pending && data.scheduledDate.value <= now)
  {
    if id == "" || !FieldsPresent(data) then Some(MissingField)
    else if id !in sys.store then Some(NotFound)
    else if !IsValidEmail(data.recipient) then Some(InvalidEmail)
    else if sys.store[id].status == Pending && data.scheduledDate.value <= now then Some(NotInFuture)
    else None
  }

  /** `updateCapsule` as written. The test on line 181 compares the stored date, which the
      store hands back as a `Date` object, with the submitted date string, so it never finds
      them equal: every successful edit of a pending capsule reaches line 182, and that call,
      `scheduleTask(id, date, true)`, cancels the timer without arming a new one. */
  function UpdateCapsule(sys: System, id: Id, data: CapsuleData, now: Time): (r: (System, Result<()>))
    // A rejection returns the validation's error and changes nothing.
    ensures UpdateRejection(sys, id, data, now).Some? ==>
      r == (sys, Failure(UpdateRejection(sys, id, data, now).value))
    ensures r.1.Failure? ==> r.0 == sys
    ensures r.1.Success? <==> UpdateRejection(sys, id, data, now) == None
    // Only the content fields and the date are overwritten; id, status and createdAt stay.
    ensures r.1.Success? ==>
      && r.0.store == sys.store[id := WithContent(sys.store[id], data)]
      && r.0.attempts == sys.attempts
    // A pending capsule loses its timer, whether or not its date changed.
    ensures r.1.Success? ==>
      if sys.store[id].status == Pending
      then r.0.timers == sys.timers - {id}
      else r.0.timers == sys.timers
  {
    match UpdateRejection(sys, id, data, now)
    case Some(e) => (sys, Failure(e))
    case None =>
      var existing := sys.store[id];
      var written := sys.(store := sys.store[id := WithContent(existing, data)]);
      if existing.status == Pending then
        // A cancelling call: the gateway argument plays no part.
        (ScheduleTask(written, id, data.scheduledDate.value, true, now, false), Success(()))
      else
        (written, Success(()))
  }

  /** `updateCapsule` as its comment on line 180 describes it: the stored and submitted dates
      are compared as instants, and a pending capsule whose date changed gets its timer
      re-armed for the new date. */
  function UpdateCapsuleRearm(sys: System, id: Id, data: CapsuleData, now: Time, armNow: Time, delivered: bool)
    : (r: (System, Result<()>))
    ensures UpdateRejection(sys, id, data, now).Some? ==>
      r == (sys, Failure(UpdateRejection(sys, id, data, now).value))
    ensures r.1.Failure? ==> r.0 == sys
    ensures r.1.Success? <==> UpdateRejection(sys, id, data, now) == None
    ensures r.1.Success? ==>
      var prev := sys.store[id];
      var next := WithContent(prev, data);
      if prev.status == Pending && prev.scheduledDate != next.scheduledDate then
        // The timer follows the new date, unless the scheduler's clock has already passed it.
        if next.scheduledDate - armNow > 0 then
          r.0.store == sys.store[id := next] && r.0.timers == sys.timers[id := next.scheduledDate]
          && r.0.attempts == sys.attempts
        else
          r.0.store == sys.store[id := next.(status := Outcome(delivered))] && id !in r.0.timers
          && r.0.attempts == sys.attempts + [EmailOf(next)]
      else
        r.0 == sys.(store := sys.store[id := next])
  {
    match UpdateRejection(sys, id, data, now)
    case Some(e) => (sys, Failure(e))
    case None =>
      var existing := sys.store[id];
      var written := sys.(store := sys.store[id := WithContent(existing, data)]);
      if existing.status == Pending && existing.scheduledDate != data.scheduledDate.value then
        (ScheduleTask(written, id, data.scheduledDate.value, false, armNow, delivered), Success(()))
      else
        (written, Success(()))
  }

  function DeleteCapsule(sys: System, id: Id): (r: (System, Result<()>))
    ensures id !in sys.store ==> r == (sys, Failure(NotFound))
    ensures id in sys.store ==> r.1.Success?
    // The record is removed; a pending one also loses its timer, and nothing is delivered.
    ensures id in sys.store ==>
      && r.0.store == sys.store - {id}
      && r.0.attempts == sys.attempts
      && r.0.timers == if sys.store[id].status == Pending then sys.timers - {id} else sys.timers
  {
    if id !in sys.store then
      (sys, Failure(NotFound))
    else
      var existing := sys.store[id];
      var removed := sys.(store := sys.store - {id});
      if existing.status == Pending then
        // A cancelling call: the date, clock and gateway arguments play no part.
        (ScheduleTask(removed, id, 0, true, 0, false), Success(()))
      else
        (removed, Success(()))
  }
}

=== FILE: capsules.dfy ===
/** The record shapes of the time-capsule app: the capsule entity and its attachments,
    the status lifecycle, the action response type, and the system state the delivery
    core works on (the capsule store, the in-memory timer registry and the log of calls
    made to the mail gateway). */
module Capsules {

  /** Capsule identifiers (uuid strings in the application). */
  type Id = string

  /** A timestamp in milliseconds. */
  type Time = int

  datatype Option<+T> = None | Some(value: T) {
    function GetOr(default: T): T {
      match this
      case Some(v) => v
      case None => default
    }
  }

  /** Pending is the only non-terminal state. */
  datatype Status = Pending | Sent | Failed

  datatype Attachment = Attachment(name: string, url: string, size: int, mediaType: string)

  datatype Capsule = Capsule(
    id: Id,
    recipient: string,
    subject: string,
    message: string,
    scheduledDate: Time,
    status: Status,
    createdAt: Time,
    attachments: seq<Attachment>)

  /** The error messages the actions return, one constructor per distinct message. */
  datatype Error =
    | MissingField    // "all fields are required"
    | InvalidEmail    // "invalid email format"
    | NotInFuture     // "the delivery date must be in the future"
    | NotFound        // "capsule not found"
    | DeliveryFailed  // "error while sending the email"

  /** The `{ success, data?, error? }` response of a server action. */
  datatype Result<+T> = Success(value: T) | Failure(error: Error)

  /** One call to the mail gateway: recipient, subject, text and attachments. */
  datatype Email = Email(to: string, subject: string, text: string, attachments: seq<Attachment>)

  /** What the gateway is asked to send for a capsule. */
  function EmailOf(c: Capsule): Email
  {
    Email(c.recipient, c.subject, c.message, c.attachments)
  }

  /** The state of the delivery core: the capsule store, the timer registry (id to fire
      time; a map, so at most one registration per id) and every gateway call made so far. */
  datatype System = System(store: map<Id, Capsule>, timers: map<Id, Time>, attempts: seq<Email>)

  /** Every stored capsule sits under its own id. */
  ghost predicate WellKeyed(store: map<Id, Capsule>)
  {
    forall id :: id in store ==> store[id].id == id
  }
}

=== FILE: cron.dfy ===
/** The reconciliation sweep of app/api/cron/route.ts:8-39: list the store by ascending
    scheduled date, keep the pending capsules whose date has passed, process each one and
    report how many were processed, delivered and failed. The parallel `Promise.allSettled`
    is a sequential fold here; `gateway` gives the mail gateway's answer per capsule id. */
module Cron {
  import opened Capsules
  import opened Delivery

  /** The sweep's filter (route.ts:16-18). */
  predicate IsDue(c: Capsule, now: Time)
    // A capsule already sent or failed, or one whose date is still ahead, is never due.
    ensures c.status == Sent || c.status == Failed ==> !IsDue(c, now)
    ensures c.scheduledDate > now ==> !IsDue(c, now)
  {
    c.status == Pending && c.scheduledDate <= now
  }

  /** The ids of the store the sweep must process. */
  function DueIds(store: map<Id, Capsule>, now: Time): set<Id>
  {
    set id | id in store && IsDue(store[id], now)
  }

  predicate SortedByDate(rows: seq<Capsule>)
  {
    forall i, j :: 0 <= i < j < |rows| ==> rows[i].scheduledDate <= rows[j].scheduledDate
  }

  predicate DistinctIds(rows: seq<Capsule>)
  {
    forall i, j :: 0 <= i < j < |rows| ==> rows[i].id != rows[j].id
  }

  /** The ids of the rows whose id satisfies `keep`. */
  function IdsWhere(rows: seq<Capsule>, keep: Id -> bool): set<Id>
  {
    set i | 0 <= i < |rows| && keep(rows[i].id) :: rows[i].id
  }

  function Ids(rows: seq<Capsule>): set<Id>
  {
    set i | 0 <= i < |rows| :: rows[i].id
  }

  /** The rows are distinct and each is what the store holds under its id. */
  predicate Current(store: map<Id, Capsule>, rows: seq<Capsule>)
  {
    && DistinctIds(rows)
    && forall i :: 0 <= i < |rows| ==> rows[i].id in store && store[rows[i].id] == rows[i]
  }

  /** `findMany({ orderBy: { scheduledDate: "asc" } })`: every stored capsule once, each as
      stored, in ascending date order (ties in any order). */
  predicate IsListing(store: map<Id, Capsule>, rows: seq<Capsule>)
  {
    Current(store, rows) && SortedByDate(rows) && Ids(rows) == store.Keys
  }

  lemma IdsCons(rows: seq<Capsule>)
    requires |rows| > 0
    ensures Ids(rows) == {rows[0].id} + Ids(rows[1..])
  {
    var rest := rows[1..];
    forall id | id in Ids(rest) ensures id in Ids(rows) {
      var i :| 0 <= i < |rest| && rest[i].id == id;
      assert rows[i + 1] == rest[i];
    }
    forall id | id in Ids(rows) && id != rows[0].id ensures id in Ids(rest) {
      var i :| 0 <= i < |rows| && rows[i].id == id;
      assert rest[i - 1] == rows[i];
    }
  }

  /** The ids `keep` accepts are those of `Ids` that it accepts. */
  lemma IdsWhereOfIds(rows: seq<Capsule>, keep: Id -> bool)
    ensures IdsWhere(rows, keep) == set id | id in Ids(rows) && keep(id)
  {
    forall id | id in Ids(rows) && keep(id) ensures id in IdsWhere(rows, keep) {
      var i :| 0 <= i < |rows| && rows[i].id == id;
    }
  }

  lemma IdsWhereCons(rows: seq<Capsule>, keep: Id -> bool)
    requires |rows| > 0
    ensures IdsWhere(rows, keep) == (if keep(rows[0].id) then {rows[0].id} else {}) + IdsWhere(rows[1..], keep)
  {
    var rest := rows[1..];
    forall id | id in IdsWhere(rest, keep) ensures id in IdsWhere(rows, keep) {
      var i :| 0 <= i < |rest| && keep(rest[i].id) && rest[i].id == id;
      assert rows[i + 1] == rest[i];
    }
    forall id | id in IdsWhere(rows, keep) && id != rows[0].id ensures id in IdsWhere(rest, keep) {
      var i :| 0 <= i < |rows| && keep(rows[i].id) && rows[i].id == id;
      assert rest[i - 1] == rows[i];
    }
  }

  lemma DistinctIdsCons(rows: seq<Capsule>)
    requires |rows| > 0
    ensures DistinctIds(rows) <==> rows[0].id !in Ids(rows[1..]) && DistinctIds(rows[1..])
  {
    var rest := rows[1..];
    if DistinctIds(rows) {
      forall i | 0 <= i < |rest| ensures rest[i].id != rows[0].id {
        assert rest[i] == rows[i + 1];
      }
      forall i, j | 0 <= i < j < |rest| ensures rest[i].id != rest[j].id {
        assert rest[i] == rows[i + 1] && rest[j] == rows[j + 1];
      }
    }
    if rows[0].id !in Ids(rest) && DistinctIds(rest) {
      forall i, j | 0 <= i < j < |rows| ensures rows[i].id != rows[j].id {
        assert rows[j] == rest[j - 1];
        if i == 0 {
          assert rest[j - 1].id in Ids(rest);
        } else {
          assert rows[i] == rest[i - 1];
        }
      }
    }
  }

  /** Distinct rows have as many ids as rows. */
  lemma {:induction false} DistinctIdsCount(rows: seq<Capsule>)
    requires DistinctIds(rows)
    ensures |Ids(rows)| == |rows|
  {
    if |rows| > 0 {
      IdsCons(rows);
      DistinctIdsCons(rows);
      DistinctIdsCount(rows[1..]);
    }
  }

  /** Where `c` goes in date-sorted rows: before the first row that is not earlier. */
  function InsertPos(rows: seq<Capsule>, c: Capsule): (p: nat)
    ensures p <= |rows|
    ensures forall k :: 0 <= k < p ==> rows[k].scheduledDate < c.scheduledDate
    ensures p < |rows| ==> c.scheduledDate <= rows[p].scheduledDate
  {
    if |rows| == 0 || c.scheduledDate <= rows[0].scheduledDate then 0
    else 1 + InsertPos(rows[1..], c)
  }

  function Insert(rows: seq<Capsule>, c: Capsule): seq<Capsule>
  {
    var p := InsertPos(rows, c);
    rows[..p] + [c] + rows[p..]
  }

  /** The rows around the insertion point, and `c` at it. */
  lemma InsertShape(rows: seq<Capsule>, c: Capsule)
    ensures var p := InsertPos(rows, c);
      var r := Insert(rows, c);
      && |r| == |rows| + 1 && r[p] == c
      && (forall k :: 0 <= k < p ==> r[k] == rows[k])
      && (forall k :: p < k < |r| ==> r[k] == rows[k - 1])
  {
  }

  /** Insertion adds exactly `c`. */
  lemma InsertMembers(rows: seq<Capsule>, c: Capsule)
    ensures var r := Insert(rows, c);
      && |r| == |rows| + 1
      && (forall x :: x in r <==> x in rows || x == c)
      && Ids(r) == Ids(rows) + {c.id}
  {
    var p := InsertPos(rows, c);
    var r := Insert(rows, c);
    InsertShape(rows, c);
    forall x | x in rows ensures x in r {
      var k :| 0 <= k < |rows| && rows[k] == x;
      if k >= p {
        assert r[k + 1] == x;
      }
    }
    forall id | id in Ids(rows) ensures id in Ids(r) {
      var k :| 0 <= k < |rows| && rows[k].id == id;
      if k < p {
        assert r[k].id == id;
      } else {
        assert r[k + 1].id == id;
      }
    }
    assert r[p].id in Ids(r);
    forall id | id in Ids(r) ensures id in Ids(rows) + {c.id} {
      var k :| 0 <= k < |r| && r[k].id == id;
      if k < p {
        assert rows[k].id == id;
      } else if k > p {
        assert rows[k - 1].id == id;
      }
    }
  }

  /** Insertion keeps date-sorted rows sorted. */
  lemma InsertSorted(rows: seq<Capsule>, c: Capsule)
    requires SortedByDate(rows)
    ensures SortedByDate(Insert(rows, c))
  {
    var p := InsertPos(rows, c);
    var r := Insert(rows, c);
    InsertShape(rows, c);
    forall i, j | 0 <= i < j < |r| ensures r[i].scheduledDate <= r[j].scheduledDate {
      if j == p {
        assert r[i] == rows[i];
      } else if i == p {
        assert r[j] == rows[j - 1];
        assert c.scheduledDate <= rows[p].scheduledDate;
      } else if i < p {
        assert r[i] == rows[i];
      } else {
        assert r[i] == rows[i - 1] && r[j] == rows[j - 1];
      }
    }
  }

  /** Inserting a capsule with a new id keeps ids distinct. */
  lemma InsertDistinct(rows: seq<Capsule>, c: Capsule)
    requires DistinctIds(rows) && c.id !in Ids(rows)
    ensures DistinctIds(Insert(rows, c))
  {
    var p := InsertPos(rows, c);
    var r := Insert(rows, c);
    InsertShape(rows, c);
    forall i, j | 0 <= i < j < |r| ensures r[i].id != r[j].id {
      if i == p {
        assert r[j] == rows[j - 1];
        assert rows[j - 1].id in Ids(rows);
      } else if j == p {
        assert r[i] == rows[i];
        assert rows[i].id in Ids(rows);
      } else if j < p {
        assert r[i] == rows[i] && r[j] == rows[j];
      } else if i < p {
        assert r[i] == rows[i] && r[j] == rows[j - 1];
      } else {
        assert r[i] == rows[i - 1] && r[j] == rows[j - 1];
      }
    }
  }

  /** The store's ordered listing, built by inserting every stored capsule in turn. */
  method FindAllOrdered(store: map<Id, Capsule>) returns (rows: seq<Capsule>)
    requires WellKeyed(store)
    ensures IsListing(store, rows)
  {
    rows := [];
    var left := store.Keys;
    while left != {}
      invariant left <= store.Keys
      invariant Ids(rows) == store.Keys - left
      invariant DistinctIds(rows) && SortedByDate(rows)
      invariant forall i :: 0 <= i < |rows| ==> rows[i].id in store && store[rows[i].id] == rows[i]
      decreases left
    {
      var k :| k in left;
      InsertMembers(rows, store[k]);
      InsertSorted(rows, store[k]);
      InsertDistinct(rows, store[k]);
      rows := Insert(rows, store[k]);
      left := left - {k};
    }
  }

  /** The due rows, in listing order (route.ts:16-18). */
  function Due(rows: seq<Capsule>, now: Time): (r: seq<Capsule>)
    ensures forall i :: 0 <= i < |r| ==> r[i] in rows && IsDue(r[i], now)
    ensures forall c :: c in rows && IsDue(c, now) ==> c in r
  {
    if |rows| == 0 then []
    else if IsDue(rows[0], now) then [rows[0]] + Due(rows[1..], now)
    else Due(rows[1..], now)
  }

  /** In sorted rows no later row is earlier than the first. */
  lemma SortedHead(rows: seq<Capsule>)
    requires |rows| > 0 && SortedByDate(rows)
    ensures SortedByDate(rows[1..])
    ensures forall x :: x in rows[1..] ==> rows[0].scheduledDate <= x.scheduledDate
  {
    forall x | x in rows[1..] ensures rows[0].scheduledDate <= x.scheduledDate {
      var k :| 0 <= k < |rows[1..]| && rows[1..][k] == x;
      assert rows[k + 1] == x;
    }
  }

  /** Filtering keeps the listing's ascending date order. */
  lemma {:induction false} DueSorted(rows: seq<Capsule>, now: Time)
    requires SortedByDate(rows)
    ensures SortedByDate(Due(rows, now))
  {
    if |rows| > 0 {
      var rest := Due(rows[1..], now);
      SortedHead(rows);
      DueSorted(rows[1..], now);
      if IsDue(rows[0], now) {
        var r := [rows[0]] + rest;
        forall i, j | 0 <= i < j < |r| ensures r[i].scheduledDate <= r[j].scheduledDate {
          assert r[j] == rest[j - 1];
          if i > 0 {
            assert r[i] == rest[i - 1];
          } else {
            assert rest[j - 1] in rows[1..];
          }
        }
      }
    }
  }

  /** Filtering keeps ids distinct. */
  lemma {:induction false} DueDistinct(rows: seq<Capsule>, now: Time)
    requires DistinctIds(rows)
    ensures DistinctIds(Due(rows, now))
  {
    if |rows| > 0 {
      var rest := Due(rows[1..], now);
      DistinctIdsCons(rows);
      DueDistinct(rows[1..], now);
      if IsDue(rows[0], now) {
        var r := [rows[0]] + rest;
        assert r[1..] == rest;
        DistinctIdsCons(r);
        forall i | 0 <= i < |rest| ensures rest[i].id != rows[0].id {
          var k :| 0 <= k < |rows[1..]| && rows[1..][k] == rest[i];
          assert rows[1..][k].id in Ids(rows[1..]);
        }
      }
    }
  }

  function Emails(rows: seq<Capsule>): seq<Email>
  {
    if |rows| == 0 then [] else [EmailOf(rows[0])] + Emails(rows[1..])
  }

  /** Processes each row's capsule in turn, collecting every outcome; one failure does not
      stop the rest. */
  function ProcessEach(sys: System, rows: seq<Capsule>, gateway: Id -> bool): (r: (System, seq<Result<()>>))
    ensures |r.1| == |rows|
    ensures r.0.timers == sys.timers
    ensures r.0.store.Keys == sys.store.Keys
    decreases |rows|
  {
    if |rows| == 0 then (sys, [])
    else
      var p := ProcessCapsule(sys, rows[0].id, gateway(rows[0].id));
      var q := ProcessEach(p.0, rows[1..], gateway);
      (q.0, [p.1] + q.1)
  }

  /** Processing the first row leaves the remaining rows current. */
  lemma CurrentAfterFirst(sys: System, rows: seq<Capsule>, delivered: bool)
    requires |rows| > 0 && Current(sys.store, rows)
    ensures Current(ProcessCapsule(sys, rows[0].id, delivered).0.store, rows[1..])
  {
    DistinctIdsCons(rows);
    forall i | 1 <= i < |rows| ensures rows[i].id != rows[0].id {
      assert rows[i].id in Ids(rows[1..]) by {
        assert rows[1..][i - 1] == rows[i];
      }
    }
  }

  /** Each row's outcome is the gateway's verdict on it. */
  lemma {:induction false} ProcessEachResults(sys: System, rows: seq<Capsule>, gateway: Id -> bool)
    requires Current(sys.store, rows)
    ensures var r := ProcessEach(sys, rows, gateway);
      forall i :: 0 <= i < |rows| ==> (r.1[i].Success? <==> gateway(rows[i].id))
    decreases |rows|
  {
    if |rows| > 0 {
      var p := ProcessCapsule(sys, rows[0].id, gateway(rows[0].id));
      CurrentAfterFirst(sys, rows, gateway(rows[0].id));
      ProcessEachResults(p.0, rows[1..], gateway);
      var q := ProcessEach(p.0, rows[1..], gateway);
      var r := ProcessEach(sys, rows, gateway);
      forall i | 1 <= i < |rows| ensures r.1[i].Success? <==> gateway(rows[i].id) {
        assert r.1[i] == q.1[i - 1] && rows[i] == rows[1..][i - 1];
      }
    }
  }

  /** The gateway is called once per row, in row order. */
  lemma {:induction false} ProcessEachAttempts(sys: System, rows: seq<Capsule>, gateway: Id -> bool)
    requires Current(sys.store, rows)
    ensures ProcessEach(sys, rows, gateway).0.attempts == sys.attempts + Emails(rows)
    decreases |rows|
  {
    if |rows| > 0 {
      var p := ProcessCapsule(sys, rows[0].id, gateway(rows[0].id));
      CurrentAfterFirst(sys, rows, gateway(rows[0].id));
      ProcessEachAttempts(p.0, rows[1..], gateway);
      assert p.0.attempts == sys.attempts + [EmailOf(rows[0])];
    }
  }

  /** Each row's capsule takes the gateway's verdict as its status; no other capsule changes. */
  lemma {:induction false} ProcessEachStore(sys: System, rows: seq<Capsule>, gateway: Id -> bool)
    requires Current(sys.store, rows)
    ensures var r := ProcessEach(sys, rows, gateway);
      forall id :: id in sys.store ==>
        r.0.store[id] == if id in Ids(rows) then sys.store[id].(status := Outcome(gateway(id))) else sys.store[id]
    decreases |rows|
  {
    if |rows| > 0 {
      var first := rows[0];
      var p := ProcessCapsule(sys, first.id, gateway(first.id));
      CurrentAfterFirst(sys, rows, gateway(first.id));
      ProcessEachStore(p.0, rows[1..], gateway);
      IdsCons(rows);
      DistinctIdsCons(rows);
    }
  }

  /** The number of successful outcomes: all of them exactly when none failed. */
  function CountSuccesses(results: seq<Result<()>>): (n: nat)
    ensures n <= |results|
    ensures n == |results| <==> forall i :: 0 <= i < |results| ==> results[i].Success?
    ensures n == 0 <==> forall i :: 0 <= i < |results| ==> results[i].Failure?
  {
    if |results| == 0 then 0
    else (if results[0].Success? then 1 else 0) + CountSuccesses(results[1..])
  }

  /** Outcomes aligned with distinct rows: the successes are the rows whose id `keep` accepts. */
  lemma {:induction false} CountSuccessesIsCard(rows: seq<Capsule>, results: seq<Result<()>>, keep: Id -> bool)
    requires DistinctIds(rows) && |results| == |rows|
    requires forall i :: 0 <= i < |rows| ==> (results[i].Success? <==> keep(rows[i].id))
    ensures CountSuccesses(results) == |IdsWhere(rows, keep)|
  {
    if |rows| > 0 {
      IdsWhereCons(rows, keep);
      DistinctIdsCons(rows);
      var rest := rows[1..];
      assert IdsWhere(rest, keep) <= Ids(rest);
      CountSuccessesIsCard(rest, results[1..], keep);
    }
  }

  /** The due rows of a listing are current, and their ids are exactly the store's due ids. */
  lemma DueOfListing(store: map<Id, Capsule>, rows: seq<Capsule>, now: Time)
    requires IsListing(store, rows)
    ensures Current(store, Due(rows, now))
    ensures Ids(Due(rows, now)) == DueIds(store, now)
  {
    var due := Due(rows, now);
    DueDistinct(rows, now);
    forall i | 0 <= i < |due| ensures due[i].id in store && store[due[i].id] == due[i] {
      var j :| 0 <= j < |rows| && rows[j] == due[i];
    }
    forall id | id in DueIds(store, now) ensures id in Ids(due) {
      assert id in Ids(rows);
      var i :| 0 <= i < |rows| && rows[i].id == id;
      assert rows[i] in rows && IsDue(rows[i], now);
      var j :| 0 <= j < |due| && due[j] == rows[i];
    }
    forall id | id in Ids(due) ensures id in DueIds(store, now) {
      var j :| 0 <= j < |due| && due[j].id == id;
      var i :| 0 <= i < |rows| && rows[i] == due[j];
    }
  }

  datatype Counts = Counts(processed: nat, successes: nat, failures: nat)

  /** There are as many due rows as due capsules in the store. */
  lemma DueCount(store: map<Id, Capsule>, rows: seq<Capsule>, now: Time)
    requires IsListing(store, rows)
    ensures |Due(rows, now)| == |DueIds(store, now)|
  {
    var due := Due(rows, now);
    DueOfListing(store, rows, now);
    DistinctIdsCount(due);
  }

  /** The delivered outcomes of the due rows are the due capsules the gateway accepts. */
  lemma SuccessCount(sys: System, rows: seq<Capsule>, now: Time, gateway: Id -> bool)
    requires IsListing(sys.store, rows)
    ensures CountSuccesses(ProcessEach(sys, Due(rows, now), gateway).1)
         == |set id | id in DueIds(sys.store, now) && gateway(id)|
  {
    var due := Due(rows, now);
    DueOfListing(sys.store, rows, now);
    IdsWhereOfIds(due, gateway);
    ProcessEachResults(sys, due, gateway);
    CountSuccessesIsCard(due, ProcessEach(sys, due, gateway).1, gateway);
  }

  /** One run of the cron route over a listing of the store. */
  function Sweep(sys: System, rows: seq<Capsule>, now: Time, gateway: Id -> bool): (r: (System, Counts))
    requires IsListing(sys.store, rows)
    // Exactly the due capsules are processed, and the counts add up.
    ensures r.1.processed == |DueIds(sys.store, now)|
    ensures r.1.successes == |set id | id in DueIds(sys.store, now) && gateway(id)|
    ensures r.1.successes + r.1.failures == r.1.processed
    // The registry is untouched and no capsule is created or removed.
    ensures r.0.timers == sys.timers
    ensures r.0.store.Keys == sys.store.Keys
  {
    var due := Due(rows, now);
    var p := ProcessEach(sys, due, gateway);
    var successes := CountSuccesses(p.1);
    DueCount(sys.store, rows, now);
    SuccessCount(sys, rows, now, gateway);
    (p.0, Counts(|due|, successes, |p.1| - successes))
  }

  /** A due capsule takes the gateway's verdict as its status; every other capsule keeps its
      record, and the gateway sees the due capsules in ascending date order. */
  lemma SweepEffect(sys: System, rows: seq<Capsule>, now: Time, gateway: Id -> bool)
    requires IsListing(sys.store, rows)
    ensures var r := Sweep(sys, rows, now, gateway).0;
      && (forall id :: id in sys.store ==>
            r.store[id] == if IsDue(sys.store[id], now)
                           then sys.store[id].(status := Outcome(gateway(id)))
                           else sys.store[id])
      && r.attempts == sys.attempts + Emails(Due(rows, now))
      && SortedByDate(Due(rows, now))
  {
    var due := Due(rows, now);
    DueOfListing(sys.store, rows, now);
    ProcessEachStore(sys, due, gateway);
    ProcessEachAttempts(sys, due, gateway);
    DueSorted(rows, now);
    forall id | id in sys.store ensures id in Ids(due) <==> IsDue(sys.store[id], now) {
      assert id in DueIds(sys.store, now) <==> IsDue(sys.store[id], now);
    }
  }

  /** The cron entry point: list the store, then sweep it. */
  method RunCron(sys: System, now: Time, gateway: Id -> bool) returns (next: System, counts: Counts)
    requires WellKeyed(sys.store)
    ensures counts.processed == |DueIds(sys.store, now)|
    ensures counts.successes == |set id | id in DueIds(sys.store, now) && gateway(id)|
    ensures counts.successes + counts.failures == counts.processed
    // The gateway is called for the due capsules only, in ascending date order.
    ensures exists rows :: IsListing(sys.store, rows) && next.attempts == sys.attempts + Emails(Due(rows, now))
    ensures next.store.Keys == sys.store.Keys && next.timers == sys.timers
    // Each due capsule takes the gateway's verdict; every other record is kept.
    ensures forall id :: id in sys.store ==>
      next.store[id] == if IsDue(sys.store[id], now)
                        then sys.store[id].(status := Outcome(gateway(id)))
                        else sys.store[id]
    // Afterwards no pending capsule is overdue.
    ensures DueIds(next.store, now) == {}
  {
    var rows := FindAllOrdered(sys.store);
    var r := Sweep(sys, rows, now, gateway);
    SweepEffect(sys, rows, now, gateway);
    next, counts := r.0, r.1;
    forall id | id in next.store ensures !IsDue(next.store[id], now) {
    }
  }
}

=== FILE: delivery.dfy ===
/** `processCapsule` (app/actions.ts:236-287): load the capsule, hand it to the mail
    gateway, and record the outcome as the capsule's status. The gateway's answer is the
    parameter `delivered`. There is no check of the current status: a capsule that is
    already Sent or Failed is handed to the gateway again. */
module Delivery {
  import opened Capsules

  /** The status a delivery attempt leaves behind. */
  function Outcome(delivered: bool): Status
  {
    if delivered then Sent else Failed
  }

  function ProcessCapsule(sys: System, id: Id, delivered: bool): (r: (System, Result<()>))
    // The timer registry is never touched.
    ensures r.0.timers == sys.timers
    // An unknown id is reported and nothing changes.
    ensures id !in sys.store ==> r == (sys, Failure(NotFound))
    // Otherwise the gateway is called exactly once, with the capsule's content ...
    ensures id in sys.store ==> r.0.attempts == sys.attempts + [EmailOf(sys.store[id])]
    // ... and exactly one status write follows, whatever the previous status was.
    ensures id in sys.store ==>
      r.0.store == sys.store[id := sys.store[id].(status := Outcome(delivered))]
    ensures id in sys.store ==> (r.1.Success? <==> delivered)
    ensures id in sys.store && !delivered ==> r.1 == Failure(DeliveryFailed)
  {
    if id !in sys.store then
      (sys, Failure(NotFound))
    else
      var c := sys.store[id];
      var sent := sys.(attempts := sys.attempts + [EmailOf(c)]);
      if delivered then
        (sent.(store := sys.store[id := c.(status := Sent)]), Success(()))
      else
        (sent.(store := sys.store[id := c.(status := Failed)]), Failure(DeliveryFailed))
  }

  /** No idempotence: processing a capsule that was already delivered calls the gateway a
      second time and overwrites the terminal status with the new outcome. */
  lemma ProcessTwiceSendsTwice(sys: System, id: Id, first: bool, second: bool)
    requires id in sys.store
    ensures var s1 := ProcessCapsule(sys, id, first).0;
      var s2 := ProcessCapsule(s1, id, second).0;
      && s1.store[id].status != Pending
      && s2.attempts == sys.attempts + [EmailOf(sys.store[id]), EmailOf(sys.store[id])]
      && s2.store[id].status == Outcome(second)
  {
    var c := sys.store[id];
    var s1 := ProcessCapsule(sys, id, first).0;
    assert EmailOf(s1.store[id]) == EmailOf(c);
  }
}

=== FILE: email_format.dfy ===
/** The recipient-address check of the create and update actions: the regular expression
    `^[^\s@]+@[^\s@]+\.[^\s@]+$` (app/actions.ts:39 and :149), stated once as the pattern
    itself and once as the structural test the actions run, with a proof that the two agree. */
module EmailFormat {
  import opened Capsules
  import opened JsChars

  /** A character of the class `[^\s@]`. */
  predicate Plain(c: char)
  {
    !IsSpace(c) && c != '@'
  }

  predicate AllPlain(t: string)
  {
    forall k :: 0 <= k < |t| ==> Plain(t[k])
  }

  /** The regular expression read literally: one or more plain characters, '@', one or more
      plain characters, a literal '.', one or more plain characters, and nothing else. */
  ghost predicate MatchesPattern(s: string)
  {
    exists i, j ::
      && 0 < i && i + 1 < j && j + 1 < |s|
      && s[i] == '@' && s[j] == '.'
      && AllPlain(s[..i]) && AllPlain(s[i + 1..j]) && AllPlain(s[j + 1..])
  }

  /** The position of the first '@' in `s`, if there is one. */
  function FirstAt(s: string): (r: Option<nat>)
    ensures r.Some? ==> r.value < |s| && s[r.value] == '@'
    ensures r.Some? ==> forall k :: 0 <= k < r.value ==> s[k] != '@'
    ensures r.None? ==> forall k :: 0 <= k < |s| ==> s[k] != '@'
  {
    if |s| == 0 then None
    else if s[0] == '@' then Some(0)
    else
      match FirstAt(s[1..])
      case None => None
      case Some(i) => Some(i + 1)
  }

  /** An '@' with none before it is the one `FirstAt` finds. */
  lemma FirstAtIs(s: string, i: nat)
    requires i < |s| && s[i] == '@'
    requires forall k :: 0 <= k < i ==> s[k] != '@'
    ensures FirstAt(s) == Some(i)
  {
    var r := FirstAt(s);
    assert r.Some? ==> !(r.value < i) && !(r.value > i);
  }

  /** `domain` has a '.' that is neither its first nor its last character. */
  predicate HasInnerDot(domain: string)
  {
    exists k | 0 < k < |domain| - 1 :: domain[k] == '.'
  }

  /** The address is `local@domain` where `local` is non-empty and free of white space and
      '@', `domain` is free of white space and '@', and `domain` has an inner '.'. */
  predicate IsValidEmail(s: string)
    // The shortest accepted address is `a@b.c`.
    ensures IsValidEmail(s) ==> 5 <= |s| && '@' in s
  {
    match FirstAt(s)
    case None => false
    case Some(i) =>
      var local, domain := s[..i], s[i + 1..];
      |local| > 0 && AllPlain(local) && AllPlain(domain) && HasInnerDot(domain)
  }

  /** An accepted address holds no white space, and its only '@' is the one `FirstAt` finds. */
  lemma ValidEmailShape(s: string)
    requires IsValidEmail(s)
    ensures forall k :: 0 <= k < |s| ==> !IsSpace(s[k])
    ensures forall k :: 0 <= k < |s| && s[k] == '@' ==> FirstAt(s) == Some(k)
  {
    var i := FirstAt(s).value;
    forall k | 0 <= k < |s| ensures Plain(s[k]) || k == i {
      if k < i {
        assert s[k] == s[..i][k];
      } else if k > i {
        assert s[k] == s[i + 1..][k - i - 1];
      }
    }
  }

  lemma AllPlainSlice(t: string, a: int, b: int)
    requires AllPlain(t) && 0 <= a <= b <= |t|
    ensures AllPlain(t[a..b])
  {
    forall k | 0 <= k < b - a ensures Plain(t[a..b][k]) {
      assert t[a..b][k] == t[a + k];
    }
  }

  lemma AllPlainJoin(x: string, c: char, y: string)
    requires AllPlain(x) && Plain(c) && AllPlain(y)
    ensures AllPlain(x + [c] + y)
  {
    var t := x + [c] + y;
    forall k | 0 <= k < |t| ensures Plain(t[k]) {
      if k < |x| {
        assert t[k] == x[k];
      } else if k > |x| {
        assert t[k] == y[k - |x| - 1];
      }
    }
  }

  lemma ValidEmailMatches(s: string)
    requires IsValidEmail(s)
    ensures MatchesPattern(s)
  {
    var i := FirstAt(s).value;
    var domain := s[i + 1..];
    var k :| 0 < k < |domain| - 1 && domain[k] == '.';
    var j := i + 1 + k;
    assert s[i + 1..j] == domain[..k];
    assert s[j + 1..] == domain[k + 1..];
    AllPlainSlice(domain, 0, k);
    AllPlainSlice(domain, k + 1, |domain|);
    assert s[j] == '.';
  }

  /** The pieces `IsValidEmail` checks, around the first '@' at `i`. */
  lemma ValidEmailOfParts(s: string, i: nat)
    requires FirstAt(s) == Some(i)
    requires 0 < i && AllPlain(s[..i]) && AllPlain(s[i + 1..]) && HasInnerDot(s[i + 1..])
    ensures IsValidEmail(s)
  {
  }

  /** The domain part `s[i+1..]` of a match, with its '.' at `j`. */
  lemma DomainOfMatch(s: string, i: nat, j: nat)
    requires i + 1 < j && j + 1 < |s| && s[j] == '.'
    requires AllPlain(s[i + 1..j]) && AllPlain(s[j + 1..])
    ensures AllPlain(s[i + 1..]) && HasInnerDot(s[i + 1..])
  {
    var domain := s[i + 1..];
    assert domain == s[i + 1..j] + [s[j]] + s[j + 1..];
    assert domain[j - i - 1] == '.';
    AllPlainJoin(s[i + 1..j], s[j], s[j + 1..]);
  }

  lemma MatchesValidEmail(s: string)
    requires MatchesPattern(s)
    ensures IsValidEmail(s)
  {
    var i, j :|
      && 0 < i && i + 1 < j && j + 1 < |s|
      && s[i] == '@' && s[j] == '.'
      && AllPlain(s[..i]) && AllPlain(s[i + 1..j]) && AllPlain(s[j + 1..]);
    // No '@' precedes position i, so it is the first one.
    forall k | 0 <= k < i ensures s[k] != '@' {
      assert s[..i][k] == s[k];
    }
    FirstAtIs(s, i);
    DomainOfMatch(s, i, j);
    ValidEmailOfParts(s, i);
  }

  /** The structural test accepts exactly the strings the regular expression matches. */
  lemma ValidEmailIffPattern(s: string)
    ensures IsValidEmail(s) <==> MatchesPattern(s)
  {
    if IsValidEmail(s) {
      ValidEmailMatches(s);
    }
    if MatchesPattern(s) {
      MatchesValidEmail(s);
    }
  }

  /** A well-formed address is accepted. */
  lemma AcceptsExample()
    ensures IsValidEmail("ann@mail.kz")
  {
    var s := "ann@mail.kz";
    FirstAtIs(s, 3);
    var local, domain := s[..3], s[4..];
    assert domain[4] == '.';
    VisiblePlain(local);
    VisiblePlain(domain);
    ValidEmailOfParts(s, 3);
  }

  /** Visible ASCII text without '@' is all plain characters. */
  lemma VisiblePlain(t: string)
    requires forall k :: 0 <= k < |t| ==> '!' <= t[k] <= '~' && t[k] != '@'
    ensures AllPlain(t)
  {
  }

  /** Near misses the pattern refuses: no inner dot, empty local part, two '@'s, white space. */
  lemma RejectsExamples()
    ensures !IsValidEmail("a@b.")
    ensures !IsValidEmail("@b.c")
    ensures !IsValidEmail("a@@b.c")
    ensures !IsValidEmail("a b@c.d")
  {
    assert FirstAt("a@@b.c") == Some(1);
    assert "a@@b.c"[2..][0] == '@';
    assert FirstAt("a b@c.d") == Some(3);
    assert "a b@c.d"[..3][1] == ' ';
  }
}

=== FILE: js_chars.dfy ===
/** Character classes of the JavaScript language that the app's string handling relies on. */
module JsChars {

  /** The characters the JavaScript class `\s` matches: the ECMAScript white space and
      line terminator characters. `Number.parseInt` skips the same set before a number. */
  predicate IsSpace(c: char)
  {
    || c == '\t' || c == '\n' || c == '\U{B}' || c == '\U{C}' || c == '\r' || c == ' '
    || c == '\U{A0}' || c == '\U{1680}'
    || ('\U{2000}' <= c <= '\U{200A}')
    || c == '\U{2028}' || c == '\U{2029}' || c == '\U{202F}' || c == '\U{205F}' || c == '\U{3000}'
    || c == '\U{FEFF}'
  }

  predicate IsDigit(c: char)
  {
    '0' <= c <= '9'
  }

  function DigitValue(c: char): (d: nat)
    requires IsDigit(c)
    ensures d < 10
  {
    (c as int) - ('0' as int)
  }

  function DigitChar(d: nat): (c: char)
    requires d < 10
    ensures IsDigit(c) && DigitValue(c) == d
  {
    ('0' as int + d) as char
  }
}

=== FILE: lifecycle.dfy ===
/** How the actions, the timer registry and the sweep fit together. The central invariant
    is `Tracked`: every pending capsule has a live timer set for its scheduled date, so a
    timer will deliver it without help from the sweep. Every step keeps the weaker
    `TimersAgree`; the update as written breaks `Tracked`, and the corrected one keeps it. */
module Lifecycle {
  import opened Capsules
  import opened Delivery
  import opened Scheduler
  import opened Actions
  import opened Cron

  /** A timer registered for a pending capsule fires at the capsule's scheduled date. */
  ghost predicate TimersAgree(sys: System)
  {
    forall id :: id in sys.store && id in sys.timers && sys.store[id].status == Pending ==>
      sys.timers[id] == sys.store[id].scheduledDate
  }

  /** Every pending capsule has a timer, and it fires at the capsule's scheduled date. */
  ghost predicate Tracked(sys: System)
  {
    forall id :: id in sys.store && sys.store[id].status == Pending ==>
      id in sys.timers && sys.timers[id] == sys.store[id].scheduledDate
  }

  lemma CreateKeepsTracked(sys: System, data: CapsuleData, id: Id, now: Time, createdNow: Time, armNow: Time, delivered: bool)
    requires id !in sys.store && Tracked(sys)
    ensures Tracked(CreateCapsule(sys, data, id, now, createdNow, armNow, delivered).0)
  {
  }

  lemma CreateKeepsTimersAgree(sys: System, data: CapsuleData, id: Id, now: Time, createdNow: Time, armNow: Time, delivered: bool)
    requires id !in sys.store && TimersAgree(sys)
    ensures TimersAgree(CreateCapsule(sys, data, id, now, createdNow, armNow, delivered).0)
  {
  }

  /** The update as written keeps timers in step with dates, but may leave a pending capsule
      without any timer (see `UpdateDropsTimer`). */
  lemma UpdateKeepsTimersAgree(sys: System, id: Id, data: CapsuleData, now: Time)
    requires TimersAgree(sys)
    ensures TimersAgree(UpdateCapsule(sys, id, data, now).0)
  {
  }

  /** Any successful update of a pending capsule, as written, leaves it pending with no
      timer, so tracking is lost. */
  lemma PendingUpdateDropsTimer(sys: System, id: Id, data: CapsuleData, now: Time)
    requires UpdateRejection(sys, id, data, now) == None
    requires sys.store[id].status == Pending
    ensures var r := UpdateCapsule(sys, id, data, now);
      && r.1.Success?
      && r.0.store[id] == WithContent(sys.store[id], data) && r.0.store[id].status == Pending
      && id !in r.0.timers
      && !Tracked(r.0)
  {
  }

  /** The capsule both counterexamples start from: pending for 100, with its timer armed. */
  function ExampleSystem(): (sys: System)
    ensures "c1" in sys.store && sys.store["c1"].status == Pending
    ensures sys.store["c1"].scheduledDate == 100 && "c1" in sys.timers && sys.timers["c1"] == 100
    ensures Tracked(sys)
  {
    System(map["c1" := Capsule("c1", "ann@mail.kz", "hi", "text", 100, Pending, 0, [])],
           map["c1" := 100], [])
  }

  /** At time 10, an edit of the example capsule to the same address and any later date
      passes validation. */
  lemma ExampleEditPasses(data: CapsuleData)
    requires data.recipient == "ann@mail.kz" && data.subject != "" && data.message != ""
    requires data.scheduledDate.Some? && data.scheduledDate.value > 10
    ensures UpdateRejection(ExampleSystem(), "c1", data, 10) == None
  {
    EmailFormat.AcceptsExample();
  }

  /** At time 10 the example capsule's date moves to 200. The update succeeds, the capsule
      is still pending, and no timer is left for it. */
  lemma UpdateDropsTimer()
    ensures var data := CapsuleData("ann@mail.kz", "hi", "text", Some(200), None);
      var r := UpdateCapsule(ExampleSystem(), "c1", data, 10);
      && r.1.Success?
      && r.0.store["c1"].status == Pending && r.0.store["c1"].scheduledDate == 200
      && "c1" !in r.0.timers
      && !Tracked(r.0)
  {
    var data := CapsuleData("ann@mail.kz", "hi", "text", Some(200), None);
    ExampleEditPasses(data);
    PendingUpdateDropsTimer(ExampleSystem(), "c1", data, 10);
  }

  /** At time 10 only the example capsule's subject is edited: its date is unchanged, yet
      the update as written leaves it pending with no timer. */
  lemma EditKeepingDateDropsTimer()
    ensures var data := CapsuleData("ann@mail.kz", "hello", "text", Some(100), None);
      var r := UpdateCapsule(ExampleSystem(), "c1", data, 10);
      && r.1.Success?
      && r.0.store["c1"].status == Pending && r.0.store["c1"].scheduledDate == 100
      && "c1" !in r.0.timers
      && !Tracked(r.0)
  {
    var data := CapsuleData("ann@mail.kz", "hello", "text", Some(100), None);
    ExampleEditPasses(data);
    PendingUpdateDropsTimer(ExampleSystem(), "c1", data, 10);
  }

  /** With the timer re-armed, every update keeps every pending capsule tracked. */
  lemma UpdateRearmKeepsTracked(sys: System, id: Id, data: CapsuleData, now: Time, armNow: Time, delivered: bool)
    requires Tracked(sys)
    ensures Tracked(UpdateCapsuleRearm(sys, id, data, now, armNow, delivered).0)
  {
    var r := UpdateCapsuleRearm(sys, id, data, now, armNow, delivered);
    if r.1.Success? {
      var prev := sys.store[id];
      assert prev.status == Pending && prev.scheduledDate == data.scheduledDate.value ==>
        r.0 == sys.(store := sys.store[id := WithContent(prev, data)]);
    }
  }

  lemma DeleteKeepsTracked(sys: System, id: Id)
    requires Tracked(sys)
    ensures Tracked(DeleteCapsule(sys, id).0)
  {
  }

  /** Delivering a capsule ends its pending state, so processing never breaks tracking. */
  lemma ProcessKeepsTracked(sys: System, id: Id, delivered: bool)
    requires Tracked(sys)
    ensures Tracked(ProcessCapsule(sys, id, delivered).0)
  {
  }

  lemma FireKeepsTracked(sys: System, id: Id, now: Time, delivered: bool)
    requires id in sys.timers && sys.timers[id] <= now && Tracked(sys)
    ensures Tracked(Fire(sys, id, now, delivered))
  {
  }

  /** `TimersAgree` is the weaker of the two invariants. */
  lemma TrackedTimersAgree(sys: System)
    requires Tracked(sys)
    ensures TimersAgree(sys)
  {
  }

  lemma UpdateRearmKeepsTimersAgree(sys: System, id: Id, data: CapsuleData, now: Time, armNow: Time, delivered: bool)
    requires TimersAgree(sys)
    ensures TimersAgree(UpdateCapsuleRearm(sys, id, data, now, armNow, delivered).0)
  {
  }

  lemma DeleteKeepsTimersAgree(sys: System, id: Id)
    requires TimersAgree(sys)
    ensures TimersAgree(DeleteCapsule(sys, id).0)
  {
  }

  lemma ProcessKeepsTimersAgree(sys: System, id: Id, delivered: bool)
    requires TimersAgree(sys)
    ensures TimersAgree(ProcessCapsule(sys, id, delivered).0)
  {
  }

  lemma FireKeepsTimersAgree(sys: System, id: Id, now: Time, delivered: bool)
    requires id in sys.timers && sys.timers[id] <= now && TimersAgree(sys)
    ensures TimersAgree(Fire(sys, id, now, delivered))
  {
  }

  lemma SweepKeepsTimersAgree(sys: System, rows: seq<Capsule>, now: Time, gateway: Id -> bool)
    requires IsListing(sys.store, rows) && TimersAgree(sys)
    ensures TimersAgree(Sweep(sys, rows, now, gateway).0)
  {
    SweepEffect(sys, rows, now, gateway);
  }

  /** Every step keeps each capsule under its own id, so the sweep's listing can be built. */
  lemma CreateKeepsWellKeyed(sys: System, data: CapsuleData, id: Id, now: Time, createdNow: Time, armNow: Time, delivered: bool)
    requires id !in sys.store && WellKeyed(sys.store)
    ensures WellKeyed(CreateCapsule(sys, data, id, now, createdNow, armNow, delivered).0.store)
  {
  }

  lemma UpdateKeepsWellKeyed(sys: System, id: Id, data: CapsuleData, now: Time)
    requires WellKeyed(sys.store)
    ensures WellKeyed(UpdateCapsule(sys, id, data, now).0.store)
  {
  }

  lemma UpdateRearmKeepsWellKeyed(sys: System, id: Id, data: CapsuleData, now: Time, armNow: Time, delivered: bool)
    requires WellKeyed(sys.store)
    ensures WellKeyed(UpdateCapsuleRearm(sys, id, data, now, armNow, delivered).0.store)
  {
  }

  lemma DeleteKeepsWellKeyed(sys: System, id: Id)
    requires WellKeyed(sys.store)
    ensures WellKeyed(DeleteCapsule(sys, id).0.store)
  {
  }

  lemma ProcessKeepsWellKeyed(sys: System, id: Id, delivered: bool)
    requires WellKeyed(sys.store)
    ensures WellKeyed(ProcessCapsule(sys, id, delivered).0.store)
  {
  }

  lemma FireKeepsWellKeyed(sys: System, id: Id, now: Time, delivered: bool)
    requires id in sys.timers && sys.timers[id] <= now && WellKeyed(sys.store)
    ensures WellKeyed(Fire(sys, id, now, delivered).store)
  {
  }

  lemma SweepKeepsWellKeyed(sys: System, rows: seq<Capsule>, now: Time, gateway: Id -> bool)
    requires IsListing(sys.store, rows) && WellKeyed(sys.store)
    ensures WellKeyed(Sweep(sys, rows, now, gateway).0.store)
  {
    SweepEffect(sys, rows, now, gateway);
  }

  /** A timer never delivers a pending capsule before its scheduled date. */
  lemma FireNeverEarly(sys: System, id: Id, now: Time, delivered: bool)
    requires id in sys.timers && sys.timers[id] <= now && TimersAgree(sys)
    requires id in sys.store && sys.store[id].status == Pending
    ensures sys.store[id].scheduledDate <= now
    ensures Fire(sys, id, now, delivered).attempts == sys.attempts + [EmailOf(sys.store[id])]
  {
  }

  lemma SweepKeepsTracked(sys: System, rows: seq<Capsule>, now: Time, gateway: Id -> bool)
    requires IsListing(sys.store, rows) && Tracked(sys)
    ensures Tracked(Sweep(sys, rows, now, gateway).0)
  {
    SweepEffect(sys, rows, now, gateway);
  }

  /** Deleting a pending capsule leaves nothing that could deliver it: no timer and no record
      for a later sweep to find. */
  lemma DeleteStopsDelivery(sys: System, id: Id, now: Time)
    requires id in sys.store && sys.store[id].status == Pending
    ensures var r := DeleteCapsule(sys, id).0;
      id !in r.timers && id !in DueIds(r.store, now)
  {
  }

  /** A capsule created for a future date within the JavaScript timer's limit is delivered
      when its timer fires at that date, with no sweep: one gateway call and the gateway's
      verdict as its status. */
  lemma CreateThenFire(sys: System, data: CapsuleData, id: Id, now: Time, createdNow: Time, armNow: Time, delivered: bool)
    requires id !in sys.store
    requires FieldsPresent(data) && EmailFormat.IsValidEmail(data.recipient)
    requires data.scheduledDate.value > armNow >= now
    requires data.scheduledDate.value - armNow <= MaxTimeoutDelay
    ensures var created := CreateCapsule(sys, data, id, now, createdNow, armNow, delivered);
      && created.1.Success? && id in created.0.timers
      && created.0.timers[id] == data.scheduledDate.value
      && var fired := Fire(created.0, id, data.scheduledDate.value, delivered);
      && fired.store[id].status == Outcome(delivered)
      && fired.attempts == sys.attempts + [EmailOf(created.1.value)]
      && id !in fired.timers
  {
  }

  /** A delivered capsule should not be delivered again, but nothing prevents it: a sweep that
      runs once a pending capsule is due but before its timer fires delivers it, and the timer
      then delivers it a second time. */
  lemma SweepThenFireDeliversTwice(sys: System, rows: seq<Capsule>, id: Id, now: Time, gateway: Id -> bool, delivered: bool)
    requires IsListing(sys.store, rows) && Tracked(sys)
    requires id in sys.store && IsDue(sys.store[id], now)
    ensures var swept := Sweep(sys, rows, now, gateway).0;
      && id in swept.timers && swept.timers[id] <= now
      && var fired := Fire(swept, id, now, delivered);
      && EmailOf(sys.store[id]) in Emails(Due(rows, now))
      && fired.attempts == sys.attempts + Emails(Due(rows, now)) + [EmailOf(sys.store[id])]
  {
    SweepEffect(sys, rows, now, gateway);
    DueOfListing(sys.store, rows, now);
    var due := Due(rows, now);
    assert id in DueIds(sys.store, now);
    var i :| 0 <= i < |due| && due[i].id == id;
    EmailsHas(due, i);
  }

  lemma {:induction false} EmailsHas(rows: seq<Capsule>, i: nat)
    requires i < |rows|
    ensures EmailOf(rows[i]) in Emails(rows)
  {
    if i > 0 {
      EmailsHas(rows[1..], i - 1);
    }
  }
}

=== FILE: number_parse.dfy ===
/** `Number.parseInt(text, 10)` as the time picker's input handlers call it
    (components/time-picker.tsx:31 and :51): skip leading white space, read an optional sign,
    then the longest run of decimal digits; no digits at all gives NaN, here `None`.
    JavaScript's -0 is the integer 0, and the loss of precision past 2^53 is not modelled. */
module NumberParse {
  import opened Capsules
  import opened JsChars

  function TrimStart(s: string): (t: string)
    ensures |t| > 0 ==> !IsSpace(t[0])
  {
    if |s| > 0 && IsSpace(s[0]) then TrimStart(s[1..]) else s
  }

  predicate AllDigits(d: string)
  {
    forall k :: 0 <= k < |d| ==> IsDigit(d[k])
  }

  /** The longest prefix of decimal digits. */
  function DigitPrefix(s: string): (d: string)
    ensures AllDigits(d)
  {
    if |s| > 0 && IsDigit(s[0]) then [s[0]] + DigitPrefix(s[1..]) else []
  }

  /** The number a run of decimal digits denotes. */
  function DigitsValue(d: string): nat
    requires AllDigits(d)
  {
    if |d| == 0 then 0 else 10 * DigitsValue(d[..|d| - 1]) + DigitValue(d[|d| - 1])
  }

  /** The value of the digits at the start of `u`, if any. */
  function LeadingNumber(u: string): Option<int>
  {
    var digits := DigitPrefix(u);
    if |digits| == 0 then None else Some(DigitsValue(digits) as int)
  }

  function Negate(v: Option<int>): Option<int>
  {
    match v
    case None => None
    case Some(n) => Some(-n)
  }

  /** The result is NaN exactly when no digit follows the white space and the optional sign,
      and it is negative only after a '-'. */
  function ParseInt(s: string): (r: Option<int>)
    ensures var t := TrimStart(s);
      var u := if |t| > 0 && (t[0] == '-' || t[0] == '+') then t[1..] else t;
      && (r.None? <==> |u| == 0 || !IsDigit(u[0]))
      && (r.Some? && r.value < 0 ==> |t| > 0 && t[0] == '-')
  {
    var t := TrimStart(s);
    if |t| > 0 && t[0] == '-' then Negate(LeadingNumber(t[1..]))
    else if |t| > 0 && t[0] == '+' then LeadingNumber(t[1..])
    else LeadingNumber(t)
  }

  /** Decimal notation of a natural number, most significant digit first, no leading zeros. */
  function ShowNat(n: nat): (s: string)
    ensures |s| > 0 && AllDigits(s)
    ensures DigitsValue(s) == n
  {
    if n < 10 then [DigitChar(n)]
    else
      var s := ShowNat(n / 10) + [DigitChar(n % 10)];
      assert s[..|s| - 1] == ShowNat(n / 10);
      s
  }

  function ShowInt(n: int): string
  {
    if n < 0 then "-" + ShowNat(-n) else ShowNat(n)
  }

  lemma {:induction false} DigitPrefixOfDigits(d: string, tail: string)
    requires AllDigits(d)
    requires |tail| == 0 || !IsDigit(tail[0])
    ensures DigitPrefix(d + tail) == d
  {
    if |d| > 0 {
      assert (d + tail)[1..] == d[1..] + tail;
      DigitPrefixOfDigits(d[1..], tail);
    }
  }

  lemma DigitIsNotSpace(c: char)
    requires IsDigit(c)
    ensures !IsSpace(c) && c != '-' && c != '+'
  {
  }

  lemma TrimNoSpace(s: string)
    requires |s| > 0 && !IsSpace(s[0])
    ensures TrimStart(s) == s
  {
  }

  /** Reading back a printed natural number. */
  lemma ParseUnsigned(d: string, tail: string)
    requires |d| > 0 && AllDigits(d)
    requires |tail| == 0 || !IsDigit(tail[0])
    ensures ParseInt(d + tail) == Some(DigitsValue(d) as int)
  {
    var s := d + tail;
    assert s[0] == d[0];
    DigitIsNotSpace(d[0]);
    TrimNoSpace(s);
    DigitPrefixOfDigits(d, tail);
  }

  /** The digits at the start of `d + tail`, where `tail` does not go on with a digit. */
  lemma LeadingDigits(d: string, tail: string)
    requires |d| > 0 && AllDigits(d)
    requires |tail| == 0 || !IsDigit(tail[0])
    ensures LeadingNumber(d + tail) == Some(DigitsValue(d) as int)
  {
    DigitPrefixOfDigits(d, tail);
  }

  /** Text that starts with '-' is read as the negation of what follows it. */
  lemma ParseMinus(s: string)
    requires |s| > 0 && s[0] == '-'
    ensures ParseInt(s) == Negate(LeadingNumber(s[1..]))
  {
    TrimNoSpace(s);
  }

  /** Reading back a printed negative integer. */
  lemma ParseShowNegative(n: int, tail: string)
    requires n < 0
    requires |tail| == 0 || !IsDigit(tail[0])
    ensures ParseInt(ShowInt(n) + tail) == Some(n)
  {
    var d := ShowNat(-n);
    var s := ShowInt(n) + tail;
    assert s == ['-'] + (d + tail);
    LeadingDigits(d, tail);
    ParseMinus(s);
  }

  /** Reading back a printed integer gives the integer, whatever non-digit text follows it
      (so "7", "7.5" and "7px" all read as 7). */
  lemma ParseShowInt(n: int, tail: string)
    requires |tail| == 0 || !IsDigit(tail[0])
    ensures ParseInt(ShowInt(n) + tail) == Some(n)
  {
    if n < 0 {
      ParseShowNegative(n, tail);
    } else {
      var d := ShowNat(n);
      assert ShowInt(n) == d;
      ParseUnsigned(d, tail);
    }
  }

  /** White space before the number is skipped; text with no digits is not a number. */
  lemma ParseExamples()
    ensures ParseInt(" 42") == Some(42)
    ensures ParseInt("") == None
    ensures ParseInt("-") == None
  {
    var s := " 42";
    assert IsSpace(s[0]) && s[1..] == "42";
    ParseUnsigned("42", "");
    assert "42" + "" == "42";
    assert DigitsValue("42") == 42 by {
      assert "42"[..1] == "4";
    }
  }
}

=== FILE: scheduler.dfy ===
/** The in-memory timer registry of lib/scheduler.ts:7-35. `scheduleTask` first clears any
    registration for the id, then either stops (cancel), arms a one-shot timer for a future
    time, or runs delivery at once; a timer that fires runs delivery and then drops its
    registration. Timers are explicit: `Fire` is the step at which an armed timer goes off. */
module Scheduler {
  import opened Capsules
  import opened Delivery

  /** `scheduleTask(id, at, cancel)` read against the clock value `now`; `delivered` is the
      gateway's answer should delivery run immediately. */
  function ScheduleTask(sys: System, id: Id, at: Time, cancel: bool, now: Time, delivered: bool): (r: System)
    // Registrations of every other id are untouched, and the id keeps at most the one it is given here.
    ensures forall other :: other != id ==>
      (other in r.timers <==> other in sys.timers) &&
      (other in sys.timers ==> r.timers[other] == sys.timers[other])
    // Cancel: the registration is gone and nothing is delivered.
    ensures cancel ==> id !in r.timers && r.store == sys.store && r.attempts == sys.attempts
    // A future time: one registration firing at `at`, nothing delivered now.
    ensures !cancel && at - now > 0 ==>
      id in r.timers && r.timers[id] == at && r.store == sys.store && r.attempts == sys.attempts
    // Not in the future: delivery runs now and leaves no registration behind.
    ensures !cancel && at - now <= 0 ==>
      id !in r.timers &&
      (r.store, r.attempts) == (var p := ProcessCapsule(sys, id, delivered).0; (p.store, p.attempts))
  {
    var cleared := sys.(timers := sys.timers - {id});
    if cancel then
      cleared
    else if at - now > 0 then
      cleared.(timers := cleared.timers[id := at])
    else
      ProcessCapsule(cleared, id, delivered).0
  }

  /** The longest delay `setTimeout` honours, in milliseconds (a signed 32-bit count). */
  const MaxTimeoutDelay: int := 0x7FFF_FFFF

  /** When a timer armed at `now` for `at` actually fires: a delay beyond the longest one
      `setTimeout` honours is replaced by 1 ms. */
  function TimeoutFireTime(at: Time, now: Time): (t: Time)
    requires at - now > 0
    ensures at - now <= MaxTimeoutDelay ==> t == at
    ensures at - now > MaxTimeoutDelay ==> t == now + 1 && t < at
  {
    if at - now > MaxTimeoutDelay then now + 1 else at
  }

  /** `scheduleTask` as it behaves on the JavaScript timer: identical to `ScheduleTask` except
      that a delay past `MaxTimeoutDelay` makes the timer fire 1 ms later. */
  function ScheduleTaskOnTimeout(sys: System, id: Id, at: Time, cancel: bool, now: Time, delivered: bool): (r: System)
    ensures !cancel && at - now > 0 ==> id in r.timers && r.timers[id] == TimeoutFireTime(at, now)
    ensures cancel || at - now <= 0 ==> r == ScheduleTask(sys, id, at, cancel, now, delivered)
    ensures r.(timers := r.timers - {id}) == (var s := ScheduleTask(sys, id, at, cancel, now, delivered); s.(timers := s.timers - {id}))
  {
    var r := ScheduleTask(sys, id, at, cancel, now, delivered);
    if !cancel && at - now > 0 then r.(timers := r.timers[id := TimeoutFireTime(at, now)]) else r
  }

  /** A capsule scheduled 30 days ahead: its timer is due 1 ms later, so firing it delivers
      the capsule about a month early. */
  lemma LongDelayFiresEarly(sys: System, id: Id, now: Time, delivered: bool)
    requires id in sys.store
    ensures var at := now + 30 * 24 * 60 * 60 * 1000;
      var armed := ScheduleTaskOnTimeout(sys, id, at, false, now, delivered);
      && armed.timers[id] == now + 1
      && Fire(armed, id, now + 1, delivered).attempts == sys.attempts + [EmailOf(sys.store[id])]
      && now + 1 < at
  {
  }

  /** The armed timer for `id` goes off at `now`, once its fire time has come: delivery runs,
      then the registration is removed. */
  function Fire(sys: System, id: Id, now: Time, delivered: bool): (r: System)
    requires id in sys.timers && sys.timers[id] <= now
    ensures r.timers == sys.timers - {id}
    ensures (r.store, r.attempts) == (var p := ProcessCapsule(sys, id, delivered).0; (p.store, p.attempts))
  {
    var p := ProcessCapsule(sys, id, delivered).0;
    p.(timers := p.timers - {id})
  }

  /** Arming again replaces the earlier registration: only the latest fire time counts. */
  lemma RearmReplaces(sys: System, id: Id, first: Time, second: Time, now: Time, delivered: bool)
    requires first - now > 0 && second - now > 0
    ensures ScheduleTask(ScheduleTask(sys, id, first, false, now, delivered), id, second, false, now, delivered)
         == ScheduleTask(sys, id, second, false, now, delivered)
  {
    var once := ScheduleTask(sys, id, second, false, now, delivered);
    var twice := ScheduleTask(ScheduleTask(sys, id, first, false, now, delivered), id, second, false, now, delivered);
    assert twice.timers == once.timers;
  }

  /** Cancelling after arming leaves the registry as if the timer had never been armed. */
  lemma CancelUndoesArm(sys: System, id: Id, at: Time, now: Time, delivered: bool)
    requires id !in sys.timers && at - now > 0
    ensures ScheduleTask(ScheduleTask(sys, id, at, false, now, delivered), id, at, true, now, delivered) == sys
  {
    var armed := ScheduleTask(sys, id, at, false, now, delivered);
    var back := ScheduleTask(armed, id, at, true, now, delivered);
    assert back.timers == sys.timers;
  }

  /** A capsule armed for a future time and then fired is delivered exactly once: one gateway
      call, the status the gateway decides, and no registration left. */
  lemma ArmThenFireDeliversOnce(sys: System, id: Id, at: Time, now: Time, later: Time, delivered: bool)
    requires id in sys.store && at - now > 0 && at <= later
    ensures var armed := ScheduleTask(sys, id, at, false, now, delivered);
      var fired := Fire(armed, id, later, delivered);
      && armed.attempts == sys.attempts
      && fired.attempts == sys.attempts + [EmailOf(sys.store[id])]
      && fired.store[id].status == Outcome(delivered)
      && id !in fired.timers
  {
  }
}

=== FILE: time_picker.dfy ===
/** The integer arithmetic of the time picker (components/time-picker.tsx): the hour and
    minute input handlers with their clamping, the AM/PM toggle, the 24-hour to 12-hour
    conversion applied when a date arrives, and the 12-hour to 24-hour conversion applied
    when the picker writes the date back. Rendering and focus handling are left out. */
module TimePicker {
  import opened Capsules
  import opened NumberParse

  /** The picker's state: the displayed hour, the minute and the AM/PM flag. */
  datatype Picker = Picker(hour: int, minute: int, isPM: bool)

  /** The ranges the handlers keep the state in (the hour input also admits 0). */
  predicate Valid(p: Picker)
  {
    0 <= p.hour <= 12 && 0 <= p.minute <= 59
  }

  function Clamp(lo: int, hi: int, v: int): (r: int)
    requires lo <= hi
    ensures lo <= r <= hi
    ensures lo <= v <= hi ==> r == v
    ensures v < lo ==> r == lo
    ensures v > hi ==> r == hi
  {
    if v > hi then hi else if v < lo then lo else v
  }

  /** The value the hour handler stores for a parsed input (lines 31-43). */
  function HourValue(v: Option<int>): (h: int)
  {
    match v
    case None => 0
    case Some(n) => Clamp(0, 12, n)
  }

  /** The value the minute handler stores for a parsed input (lines 51-63). */
  function MinuteValue(v: Option<int>): (m: int)
  {
    match v
    case None => 0
    case Some(n) => Clamp(0, 59, n)
  }

  /** The hour handler (lines 30-43): the hour lands in [0, 12], nothing else changes. */
  function HourChange(p: Picker, text: string): (q: Picker)
    ensures 0 <= q.hour <= 12
    ensures q.minute == p.minute && q.isPM == p.isPM
  {
    p.(hour := HourValue(ParseInt(text)))
  }

  /** The minute handler (lines 50-64): the minute lands in [0, 59], nothing else changes. */
  function MinuteChange(p: Picker, text: string): (q: Picker)
    ensures 0 <= q.minute <= 59
    ensures q.hour == p.hour && q.isPM == p.isPM
  {
    p.(minute := MinuteValue(ParseInt(text)))
  }

  /** The AM/PM button (lines 66-68). */
  function Toggle(p: Picker): (q: Picker)
    ensures q.isPM != p.isPM
    ensures q.hour == p.hour && q.minute == p.minute
  {
    p.(isPM := !p.isPM)
  }

  /** A date with hours `h` (0-23) and minutes `m` arrives (lines 19-28). */
  function FromDate(h: int, m: int): (p: Picker)
    requires 0 <= h < 24 && 0 <= m < 60
    ensures Valid(p) && 1 <= p.hour <= 12
    ensures p.isPM <==> h >= 12
    ensures p.minute == m
  {
    Picker(if h % 12 == 0 then 12 else h % 12, m, h >= 12)
  }

  /** The hours written back to the date (line 74). */
  function ToHours(p: Picker): (h: int)
    requires Valid(p)
    ensures 0 <= h <= 23
    ensures p.hour == 12 ==> h == (if p.isPM then 12 else 0)
    ensures 1 <= p.hour <= 11 ==> h == (if p.isPM then p.hour + 12 else p.hour)
  {
    if p.isPM then (if p.hour == 12 then 12 else p.hour + 12)
    else if p.hour == 12 then 0 else p.hour
  }

  /** Unparsable hour text becomes 0; a number above 12 becomes 12, one below 0 becomes 0,
      and any other is kept. */
  lemma HourInput(p: Picker, text: string)
    ensures var q := HourChange(p, text);
      && (ParseInt(text) == None ==> q.hour == 0)
      && (ParseInt(text).Some? && ParseInt(text).value > 12 ==> q.hour == 12)
      && (ParseInt(text).Some? && ParseInt(text).value < 0 ==> q.hour == 0)
      && (ParseInt(text).Some? && 0 <= ParseInt(text).value <= 12 ==> q.hour == ParseInt(text).value)
  {
  }

  /** Unparsable minute text becomes 0; a number above 59 becomes 59, one below 0 becomes 0,
      and any other is kept. */
  lemma MinuteInput(p: Picker, text: string)
    ensures var q := MinuteChange(p, text);
      && (ParseInt(text) == None ==> q.minute == 0)
      && (ParseInt(text).Some? && ParseInt(text).value > 59 ==> q.minute == 59)
      && (ParseInt(text).Some? && ParseInt(text).value < 0 ==> q.minute == 0)
      && (ParseInt(text).Some? && 0 <= ParseInt(text).value <= 59 ==> q.minute == ParseInt(text).value)
  {
  }

  /** Typing the displayed hour back in leaves it unchanged. */
  lemma HourInputKeepsShownHour(p: Picker, h: int)
    requires 0 <= h <= 12
    ensures HourChange(p, ShowInt(h)).hour == h
  {
    ParseShowInt(h, "");
    assert ShowInt(h) + "" == ShowInt(h);
  }

  /** Every handler keeps the state in range. */
  lemma HandlersKeepValid(p: Picker, text: string)
    requires Valid(p)
    ensures Valid(HourChange(p, text)) && Valid(MinuteChange(p, text)) && Valid(Toggle(p))
  {
  }

  /** The toggle flips AM/PM and nothing else; toggling twice restores the state. */
  lemma ToggleTwice(p: Picker)
    ensures Toggle(p).isPM != p.isPM
    ensures Toggle(p).(isPM := p.isPM) == p
    ensures Toggle(Toggle(p)) == p
  {
  }

  /** Converting a 24-hour time to the picker and back gives the same hours and minutes. */
  lemma DateRoundTrip(h: int, m: int)
    requires 0 <= h < 24 && 0 <= m < 60
    ensures ToHours(FromDate(h, m)) == h
    ensures FromDate(h, m).minute == m
  {
  }

  /** Every displayed hour 1-12 with either flag is what a date converts to: the 12-hour side
      of the round trip. */
  lemma PickerRoundTrip(p: Picker)
    requires Valid(p) && 1 <= p.hour
    ensures FromDate(ToHours(p), p.minute) == p
  {
  }

  /** The hour input accepts 0, which writes back the same hours as 12. */
  lemma ZeroHourActsAsTwelve(p: Picker)
    requires Valid(p) && p.hour == 0
    ensures ToHours(p) == ToHours(p.(hour := 12))
  {
  }
}
